=== FILE: README.md ===
# Template helpers of the shop administration site

The site is a FastAPI application rendering Jinja templates. Its
`util/templateFilters.py` holds two helpers:

- `formatarIdParaImagem`, registered as the `id_img` Jinja filter: a product id becomes
  the zero-padded number that names the product's photo
  (`static/img/produtos/0007.jpg`). An absent id or id `0` gives the empty
  string.
- `capitalizar_nome_proprio`, called directly by the account-creation route:
  the proper-name casing applied to a new account's name. The name is lower-cased and split on whitespace. Each
  token is capitalised, except the Portuguese particles
  `de, da, do, di, das, com, dos`, which stay lower-case. The tokens are
  joined with single spaces.

This project models both functions as Dafny functions. It also models the
Python string and number operations they are built from, and proves what
the callers depend on:

- the id text reads back as the id;
- it is never truncated;
- different products never share an image file;
- the cased name is single-spaced, so the caller's `.strip()` changes nothing;
- it keeps the input's tokens, one for one, up to letter case;
- it ignores the input's case and is idempotent.

Files:

- `wrappers.dfy`: the `Option` type (Python's `None`).
- `numerals.dfy`: module `Numerals`. It holds the decimal digits of a
  natural number, zero padding to a minimum width, and an independent
  reader of digit strings.
- `text.dfy`: module `Text`. It holds `isspace`, `lower`, `capitalize`,
  `split()`, `' '.join` and `strip()` on strings of code points.
- `template_filters.dfy`: module `TemplateFilters`. It holds the two
  filters, the image path built in the product routes, and their properties.

The format `f"{id:0{4}}"` pads to a minimum width only: ids from 10000 on
keep all their digits (`FormatIdNoTruncation`).

The filter and the saved file name differ at id 0: the filter gives the
empty string there, while `{id:04d}` would name the file `0000.jpg`. The model
assumes that the product repository numbers products from 1, so a stored
product never has id 0; `FilterNamesSavedImage` is stated for positive ids
for that reason. The product-change route builds the file name from the id
in the URL, which may be 0: a photo saved there as `0000.jpg` is never named
by the filter.

## Model

| member | source | states |
|---|---|---|
| `TemplateFilters.FormatIdForImage` | arquivos/util/templateFilters.py:1-5 | the result is empty exactly when the id is `None` or `0`; it holds only digits; a non-empty result is at least 4 characters long; for a positive id it reads back as that id |
| `TemplateFilters.FormatIdFourDigits` | arquivos/util/templateFilters.py:4 | for a positive id, the text is exactly 4 characters long if and only if the id is at most 9999 |
| `TemplateFilters.FormatIdNoTruncation` | arquivos/util/templateFilters.py:4 | from 10000 on, the text is the plain decimal representation of the id, with nothing cut |
| `TemplateFilters.FormatIdPadsWithZeros` | arquivos/util/templateFilters.py:4 | for a positive id, the text is some number of '0' characters followed by the id's decimal digits |
| `TemplateFilters.FormatIdInjective` | arquivos/util/templateFilters.py:4 | two positive ids with the same text are the same id |
| `TemplateFilters.FormatIdExamples` | arquivos/util/templateFilters.py:1-5 | 7 gives "0007", 12345 gives "12345", 0 and `None` give "" |
| `TemplateFilters.ImagePath` | arquivos/routes/ProdutoRouter.py:87 | the saved photo's path is at least as long as the folder, four digits and ".jpg" |
| `TemplateFilters.FilterNamesSavedImage` | arquivos/routes/ProdutoRouter.py:87 | for every positive id, the folder plus the `id_img` text plus ".jpg" is exactly the path the photo is saved under with `04d` |
| `TemplateFilters.ImagePathInjective` | arquivos/routes/ProdutoRouter.py:142 | two product ids with the same image path are the same id, so no product overwrites another's photo |
| `Numerals.ZeroPadded` | arquivos/util/templateFilters.py:4 | the `0{4}` / `04d` format of a non-negative int is at least `width` characters, never shorter than the number's digits, and holds only digits; `ZeroPaddedShape` and `ZeroPaddedZerosThenDigits` pin it down as zeros followed by the digits, reading back as the number |
| `Numerals.ZeroPaddedZerosThenDigits` | arquivos/routes/ProdutoRouter.py:87 | the `04d` text is some number of '0' characters followed by the decimal digits |
| `Numerals.Decimal` | arquivos/util/templateFilters.py:4 | the digits of a number are at least one digit character; they are "0" exactly for zero; there is no leading zero otherwise |
| `Numerals.ReadDecimal` | arquivos/util/templateFilters.py:4 | the reader gives a value exactly for non-empty all-digit strings |
| `Numerals.ReadDecimalOfDecimal` | arquivos/util/templateFilters.py:4 | reading a number's decimal digits gives the number back |
| `Numerals.ReadDecimalIgnoresLeadingZeros` | arquivos/util/templateFilters.py:4 | zeros put in front of a digit string do not change the value it reads as |
| `Numerals.DecimalLength` | arquivos/util/templateFilters.py:4 | a number has at most k digits if and only if it is below 10^k |
| `Numerals.ZeroPaddedShape` | arquivos/util/templateFilters.py:4 | padded text is max(width, digit count) long, is zeros followed by the digits, holds only digits and reads back as the number |
| `Numerals.ZeroPaddedInjective` | arquivos/routes/ProdutoRouter.py:87 | two numbers padded to the same width give the same text only if they are equal |
| `Text.LowerChar` | arquivos/util/templateFilters.py:8 | lower-casing turns an upper-case letter into a lower-case letter and copies every other character unchanged; it never gives an upper-case letter and keeps whether a character is whitespace |
| `Text.UpperChar` | arquivos/util/templateFilters.py:12 | upper-casing turns a lower-case letter into the upper-case letter that lower-cases back to it, and copies every other character unchanged; it never gives a lower-case letter and keeps whether a character is whitespace |
| `Text.Lower` | arquivos/util/templateFilters.py:8 | `str.lower` keeps the length, leaves no upper-case letter, and keeps every whitespace position; `LowerChar` fixes each character's image, and `LowerOfLowerCase`, `LowerIdempotent` and `SplitLower` carry its other properties |
| `Text.SpaceIsCaseless` | arquivos/util/templateFilters.py:10 | the whitespace class `IsSpace` that `split()` and `strip()` use (Python's `isspace` on Latin-1) holds no letter, and both case mappings leave its characters alone |
| `Text.Capitalize` | arquivos/util/templateFilters.py:12 | `str.capitalize` keeps the length, upper-cases the first character, leaves the rest with no upper-case letter, and equals its input up to case |
| `Text.JoinSpace` | arquivos/util/templateFilters.py:15 | `' '.join` is as long as the words together plus one separator between each pair; `JoinSpaceSingleSpaced` and `SplitJoinSpace` carry its other properties |
| `Text.Strip` | arquivos/routes/RootRouter.py:100 | `strip()` leaves no whitespace at either end, removes only whitespace (the non-whitespace characters are kept in order), gives the empty string exactly for whitespace-only text, and is a prefix of the left-stripped text with only whitespace after it, so the interior is kept verbatim; `StripLeft` and `StripRight` state each side |
| `Text.LowerOfLowerCase` | arquivos/util/templateFilters.py:8 | lower-casing copies text with no upper-case letter unchanged |
| `Text.LowerIdempotent` | arquivos/util/templateFilters.py:8 | lower-cased text has no upper-case letter, and lower-casing it again changes nothing |
| `Text.CaseRoundTrip` | arquivos/util/templateFilters.py:12 | upper-casing then lower-casing a character equals lower-casing it; the converse also holds |
| `Text.TokenEnd` | arquivos/util/templateFilters.py:10 | the end of the first token is the first whitespace position, or the end of the text |
| `Text.Split` | arquivos/util/templateFilters.py:10 | every token is non-empty and free of whitespace; there are no tokens exactly when the text is whitespace only |
| `Text.SplitWordThen` | arquivos/util/templateFilters.py:10 | a word followed by whitespace or by nothing splits into that word, then the split of the rest |
| `Text.SplitJoinSpace` | arquivos/util/templateFilters.py:10-15 | splitting undoes joining with single spaces, for any list of non-empty whitespace-free words |
| `Text.SplitLower` | arquivos/util/templateFilters.py:8-10 | the tokens of the lower-cased text are the lower-cased tokens of the text, equal in number |
| `Text.SplitKeepsNonSpace` | arquivos/util/templateFilters.py:10 | the tokens, concatenated, are the input with its whitespace removed: no other character is lost or reordered |
| `Text.JoinSpaceSingleSpaced` | arquivos/util/templateFilters.py:15 | joining words gives single-spaced text with no whitespace at either end; it is empty exactly when there are no words |
| `Text.StripLeft` | arquivos/routes/RootRouter.py:100 | the result is a suffix of the input; the part removed is all whitespace; the result does not start with whitespace |
| `Text.StripRight` | arquivos/routes/RootRouter.py:100 | the result is a prefix of the input; the part removed is all whitespace; the result does not end with whitespace |
| `Text.StripSingleSpaced` | arquivos/routes/RootRouter.py:100 | stripping single-spaced text changes nothing |
| `TemplateFilters.CapitalizeProperName` | arquivos/util/templateFilters.py:7-15 | the cased name has no leading or trailing whitespace and only single spaces between words; it is empty exactly when the input is empty or whitespace only |
| `TemplateFilters.CapitalizeToken` | arquivos/util/templateFilters.py:12 | the conditional in the comprehension keeps the token's length and letters up to case; a particle comes out with no upper-case letter; any other non-empty token gets its first character upper-cased and no upper-case letter after it; `ProperNameCasing` states the rule per output word |
| `TemplateFilters.CapitalizeAll` | arquivos/util/templateFilters.py:11-14 | the comprehension keeps the number of tokens; each output is a word equal to its input token up to case |
| `TemplateFilters.CapitalizeTokenKeepsLetters` | arquivos/util/templateFilters.py:12 | casing one token keeps it a non-empty whitespace-free word, equal to the token up to case |
| `TemplateFilters.ProperNameTokens` | arquivos/util/templateFilters.py:10-14 | the output has as many words as the input has tokens, and the i-th word equals the i-th token up to case |
| `TemplateFilters.ProperNameCasing` | arquivos/util/templateFilters.py:9-12 | a token that is a particle in any case comes out all lower-case; any other token keeps its length, gets its first character upper-cased and the rest lower-cased |
| `TemplateFilters.ProperNameIsStripped` | arquivos/routes/RootRouter.py:100 | the `.strip()` the account form applies after the casing changes nothing |
| `TemplateFilters.ProperNameIgnoresCase` | arquivos/util/templateFilters.py:8 | casing the lower-cased input gives the same result as casing the input |
| `TemplateFilters.ProperNameIdempotent` | arquivos/util/templateFilters.py:7-15 | casing an already cased name changes nothing |
| `TemplateFilters.ProperNameExample` | arquivos/util/templateFilters.py:7-15 | "MARIA DA SILVA" becomes "Maria da Silva" |

## Left out

- The route handlers in `routes/UsuarioRouter.py`, `routes/ProdutoRouter.py` and `routes/RootRouter.py` are left out. They do HTTP routing, template rendering, cookies, redirects, session lookup and repository (database) calls. Only the image path expression and the `.strip()` after name casing are modelled.
- The registration of `formatarIdParaImagem` as the `id_img` Jinja filter (`routes/ProdutoRouter.py:29`, `routes/RootRouter.py:20`) is left out, because it is a mutation of the template environment. `FilterNamesSavedImage` states the property the registration serves.
- The form validators (`is_not_empty`, `is_password`, `is_person_fullname`, `is_matching_fields`, `add_error`) are left out: `util/validator.py` is not part of this model. So is the password-change flow built on them.
- Password hashing, token generation and password checking are left out. They are calls into code outside this model.
- Image upload, square cropping and saving (PIL and file I/O) are left out. Only the file name the photo is saved under is modelled.
- The product price is left out, because it is a floating-point form field.
- The admin-user guards of the user routes are left out. They are equality tests around redirects and repository calls.
- Ids are modelled as `Option<nat>`. A string id would be padded on the right by Python's format, and a negative id would get sign-aware padding. Neither reaches the filter in the routes shown.
- Characters above U+00FF are left out. For those, Python's `lower`, `capitalize` and `isspace` use Unicode tables that the model does not carry. The model treats such characters as caseless and as not whitespace.
- `Text.UpperChar`: does not model that Python title-cases 'ß' to "Ss", 'ÿ' to 'Ÿ' (U+0178) and 'µ' to 'Μ' (U+039C) when such a character starts a token. The model leaves these three unchanged.

=== FILE: numerals.dfy ===
/**
 * Decimal text of natural numbers: the digits Python's `str`/`format`
 * produce for a non-negative `int`, the zero padding of the `0<width>`
 * format specification, and an independent reader that gives a digit
 * string its numeric value back.
 */
module Numerals {
  import opened Wrappers

  predicate IsDigit(c: char) {
    '0' <= c <= '9'
  }

  predicate AllDigits(s: string) {
    forall i :: 0 <= i < |s| ==> IsDigit(s[i])
  }

  function DigitChar(d: nat): (c: char)
    requires d < 10
    ensures IsDigit(c)
  {
    ('0' as int + d) as char
  }

  function DigitValue(c: char): (d: nat)
    requires IsDigit(c)
    ensures d < 10
  {
    c as int - '0' as int
  }

  function Pow10(k: nat): (p: nat)
    ensures p >= 1
  {
    if k == 0 then 1 else 10 * Pow10(k - 1)
  }

  /** `k` copies of the character '0'. */
  function Zeros(k: nat): (z: string)
    ensures |z| == k
    ensures forall i :: 0 <= i < k ==> z[i] == '0'
  {
    if k == 0 then [] else Zeros(k - 1) + "0"
  }

  /**
   * The decimal representation of `n` (Python `str(n)`): at least one digit,
   * and a leading zero only for the number zero itself.
   */
  function Decimal(n: nat): (s: string)
    ensures |s| >= 1 && AllDigits(s)
    ensures s == "0" <==> n == 0
    ensures |s| > 1 ==> s[0] != '0'
  {
    if n < 10 then [DigitChar(n)] else Decimal(n / 10) + [DigitChar(n % 10)]
  }

  /**
   * Reads a digit string as a number, most significant digit first; `None`
   * for the empty string or one holding a character that is not a digit.
   * Leading zeros are accepted, as Python's `int` accepts them.
   */
  function ReadDecimal(s: string): (v: Option<nat>)
    ensures v.Some? <==> |s| >= 1 && AllDigits(s)
  {
    if s == [] || !IsDigit(s[|s| - 1]) then None
    else if |s| == 1 then Some(DigitValue(s[0]))
    else match ReadDecimal(s[..|s| - 1])
      case None => None
      case Some(high) => Some(10 * high + DigitValue(s[|s| - 1]))
  }

  /**
   * Python's `format(n, "0<width>")` (and `"0<width>d"`) on a non-negative
   * integer: the decimal digits, left-padded with '0' up to `width`
   * characters. The width is a minimum only; longer numbers are not cut.
   */
  function ZeroPadded(n: nat, width: nat): (r: string)
    ensures |r| >= width && |r| >= |Decimal(n)|
    ensures AllDigits(r)
  {
    var digits := Decimal(n);
    if |digits| >= width then digits else Zeros(width - |digits|) + digits
  }

  /** Reading the decimal representation gives the number back. */
  lemma {:induction false} ReadDecimalOfDecimal(n: nat)
    ensures ReadDecimal(Decimal(n)) == Some(n)
  {
    if n >= 10 {
      var s := Decimal(n);
      ReadDecimalOfDecimal(n / 10);
      assert s[..|s| - 1] == Decimal(n / 10);
    }
  }

  /** Zeros in front of a digit string do not change the number it reads as. */
  lemma {:induction false} ReadDecimalIgnoresLeadingZeros(k: nat, s: string)
    requires |s| >= 1
    ensures ReadDecimal(Zeros(k) + s) == ReadDecimal(s)
  {
    var t := Zeros(k) + s;
    if |s| == 1 {
      if k > 0 {
        ReadZeros(k);
        assert t[..|t| - 1] == Zeros(k);
      }
    } else {
      ReadDecimalIgnoresLeadingZeros(k, s[..|s| - 1]);
      assert t[..|t| - 1] == Zeros(k) + s[..|s| - 1];
    }
  }

  lemma {:induction false} ReadZeros(k: nat)
    requires k >= 1
    ensures ReadDecimal(Zeros(k)) == Some(0)
  {
    if k > 1 {
      ReadZeros(k - 1);
      assert Zeros(k)[..k - 1] == Zeros(k - 1);
    }
  }

  /** A number has at most `k` digits exactly when it is below 10^k. */
  lemma {:induction false} DecimalLength(n: nat, k: nat)
    requires k >= 1
    ensures |Decimal(n)| <= k <==> n < Pow10(k)
  {
    if n >= 10 {
      if k == 1 {
        assert Pow10(1) == 10;
      } else {
        DecimalLength(n / 10, k - 1);
        assert n / 10 < Pow10(k - 1) <==> n < 10 * Pow10(k - 1);
      }
    } else {
      PowAtLeastTen(k);
    }
  }

  lemma PowAtLeastTen(k: nat)
    requires k >= 1
    ensures Pow10(k) >= 10
  {
  }

  /**
   * The padded text is the digits preceded by zeros only, is exactly
   * `max(width, digit count)` long, and reads back as `n`.
   */
  lemma {:induction false} ZeroPaddedShape(n: nat, width: nat)
    ensures var r := ZeroPadded(n, width); var d := Decimal(n);
      && |r| == (if |d| >= width then |d| else width)
      && r[|r| - |d|..] == d
      && (forall i :: 0 <= i < |r| - |d| ==> r[i] == '0')
      && AllDigits(r)
      && ReadDecimal(r) == Some(n)
  {
    var r := ZeroPadded(n, width);
    var d := Decimal(n);
    var z := Zeros(|r| - |d|);
    ZeroPaddedZerosThenDigits(n, width);
    assert r == z + d;
    assert r[|r| - |d|..] == d;
    assert forall i :: 0 <= i < |r| - |d| ==> r[i] == z[i];
    ReadDecimalOfDecimal(n);
    if |z| > 0 {
      ReadDecimalIgnoresLeadingZeros(|z|, d);
    }
  }

  /** The padded text is zeros followed by the digits, written as one concatenation. */
  lemma {:induction false} ZeroPaddedZerosThenDigits(n: nat, width: nat)
    ensures var r := ZeroPadded(n, width); var d := Decimal(n);
      && |r| >= |d|
      && r == Zeros(|r| - |d|) + d
  {
    var r, d := ZeroPadded(n, width), Decimal(n);
    if |d| >= width {
      assert r == Zeros(0) + d;
    }
  }

  /** Two numbers padded to the same width give the same text only if they are equal. */
  lemma ZeroPaddedInjective(m: nat, n: nat, width: nat)
    requires ZeroPadded(m, width) == ZeroPadded(n, width)
    ensures m == n
  {
    ZeroPaddedShape(m, width);
    ZeroPaddedShape(n, width);
  }
}

=== FILE: template_filters.dfy ===
/**
 * The two helpers of the shop site's `util/templateFilters.py`: the
 * product-id formatter, registered as the `id_img` Jinja filter and matching
 * the image file names, and the proper-name casing that the account-creation
 * route calls directly on a new account's name.
 */
module TemplateFilters {
  import opened Wrappers
  import opened Numerals
  import opened Text

  /** Minimum number of digits of an image id. */
  const ImageIdWidth: nat := 4

  /** Folder the product photos are saved in, relative to the server's working directory. */
  const ImageFolder: string := "static/img/produtos/"

  /**
   * `formatarIdParaImagem`. Python's `not id` holds for `None` and for `0`,
   * and both give the empty string; any other id is formatted with the
   * `0{4}` specification, that is zero-padded to at least four digits.
   */
  function FormatIdForImage(id: Option<nat>): (r: string)
    ensures r == [] <==> id == None || id == Some(0)
    ensures AllDigits(r)
    ensures r == [] || |r| >= ImageIdWidth
    ensures id.Some? && id.value > 0 ==> ReadDecimal(r) == Some(id.value)
  {
    match id
    case None => ""
    case Some(n) =>
      if n == 0 then ""
      else
        ZeroPaddedShape(n, ImageIdWidth);
        ZeroPadded(n, ImageIdWidth)
  }

  /**
   * The file a product's photo is saved under when the product is created
   * or changed: the id formatted with `04d`, with no falsy-id guard.
   */
  function ImagePath(productId: nat): (p: string)
    ensures |p| >= |ImageFolder| + ImageIdWidth + 4
  {
    ZeroPaddedShape(productId, ImageIdWidth);
    ImageFolder + ZeroPadded(productId, ImageIdWidth) + ".jpg"
  }

  /** For ids 1 through 9999 the text is exactly four digits, and only for those. */
  lemma {:induction false} FormatIdFourDigits(n: nat)
    requires n > 0
    ensures |FormatIdForImage(Some(n))| == ImageIdWidth <==> n <= 9999
  {
    assert Pow10(ImageIdWidth) == 10000;
    DecimalLength(n, ImageIdWidth);
    ZeroPaddedShape(n, ImageIdWidth);
  }

  /** The width is a minimum only: from 10000 on the text is the plain decimal, nothing cut. */
  lemma FormatIdNoTruncation(n: nat)
    requires n >= 10000
    ensures FormatIdForImage(Some(n)) == Decimal(n)
  {
    DecimalLength(n, ImageIdWidth);
    assert Pow10(ImageIdWidth) == 10000;
  }

  /** A positive id is its decimal digits preceded by nothing but zeros. */
  lemma {:induction false} FormatIdPadsWithZeros(n: nat)
    requires n > 0
    ensures var r := FormatIdForImage(Some(n)); var d := Decimal(n);
      && |r| >= |d|
      && r == Zeros(|r| - |d|) + d
  {
    FormatIdIsPadded(n);
    ZeroPaddedZerosThenDigits(n, ImageIdWidth);
  }

  lemma FormatIdIsPadded(n: nat)
    requires n > 0
    ensures FormatIdForImage(Some(n)) == ZeroPadded(n, ImageIdWidth)
  {
  }

  /** Different products get different id texts. */
  lemma FormatIdInjective(m: nat, n: nat)
    requires m > 0 && n > 0
    requires FormatIdForImage(Some(m)) == FormatIdForImage(Some(n))
    ensures m == n
  {
  }

  /** The `id_img` filter names, for every real (positive) product id, the file the photo was saved under. */
  lemma FilterNamesSavedImage(n: nat)
    requires n > 0
    ensures ImageFolder + FormatIdForImage(Some(n)) + ".jpg" == ImagePath(n)
  {
  }

  /** No two products share an image file. */
  lemma ImagePathInjective(m: nat, n: nat)
    requires ImagePath(m) == ImagePath(n)
    ensures m == n
  {
    var a, b := ZeroPadded(m, ImageIdWidth), ZeroPadded(n, ImageIdWidth);
    assert a == ImagePath(m)[|ImageFolder|..|ImagePath(m)| - 4];
    assert b == ImagePath(n)[|ImageFolder|..|ImagePath(n)| - 4];
    ZeroPaddedInjective(m, n, ImageIdWidth);
  }

  /** Examples of the id formatter. */
  lemma FormatIdExamples()
    ensures FormatIdForImage(Some(7)) == "0007"
    ensures FormatIdForImage(Some(12345)) == "12345"
    ensures FormatIdForImage(Some(0)) == ""
    ensures FormatIdForImage(None) == ""
  {
    ExampleSeven();
    ExampleFiveDigits();
  }

  lemma ExampleSeven()
    ensures ZeroPadded(7, ImageIdWidth) == "0007"
  {
    assert Decimal(7) == "7";
    assert Zeros(3) == "000";
  }

  lemma ExampleFiveDigits()
    ensures ZeroPadded(12345, ImageIdWidth) == "12345"
  {
    assert Decimal(1) == "1";
    assert Decimal(12) == "12";
    assert Decimal(123) == "123";
    assert Decimal(1234) == "1234";
    assert Decimal(12345) == "12345";
  }

  /** Particles of Portuguese names that stay lower-case. */
  const StopWords: seq<string> := ["de", "da", "do", "di", "das", "com", "dos"]

  /** One element of the list comprehension: a particle lower-cased, any other word capitalised. */
  function CapitalizeToken(word: string): (r: string)
    ensures |r| == |word|
    ensures Lower(r) == Lower(word)
    ensures Lower(word) in StopWords ==> IsLowerCase(r)
    ensures Lower(word) !in StopWords && word != [] ==> r[0] == UpperChar(word[0]) && IsLowerCase(r[1..])
  {
    LowerIdempotent(word);
    if Lower(word) !in StopWords then Capitalize(word) else Lower(word)
  }

  /**
   * `capitalizar_nome_proprio`: lower-case the name, split it on whitespace,
   * capitalise every token but the particles, and join with single spaces.
   */
  function CapitalizeProperName(name: string): (r: string)
    ensures SingleSpaced(r)
    ensures r == [] <==> AllSpace(name)
  {
    var lowered := Lower(name);
    assert AllSpace(lowered) <==> AllSpace(name) by {
      assert forall i :: 0 <= i < |name| ==> IsSpace(lowered[i]) == IsSpace(name[i]);
    }
    var words := Split(lowered);
    var capitalized := CapitalizeAll(words);
    JoinSpaceSingleSpaced(capitalized);
    JoinSpace(capitalized)
  }

  function CapitalizeAll(words: seq<string>): (rs: seq<string>)
    requires AllWords(words)
    ensures AllWords(rs)
    ensures |rs| == |words|
    ensures forall i :: 0 <= i < |rs| ==> Lower(rs[i]) == Lower(words[i])
  {
    var rs := seq(|words|, i requires 0 <= i < |words| => CapitalizeToken(words[i]));
    forall i | 0 <= i < |rs| ensures IsWord(rs[i]) && Lower(rs[i]) == Lower(words[i]) {
      CapitalizeTokenKeepsLetters(words[i]);
    }
    rs
  }

  /** Capitalising a token keeps it a whitespace-free word that equals the token up to case. */
  lemma CapitalizeTokenKeepsLetters(w: string)
    requires IsWord(w)
    ensures IsWord(CapitalizeToken(w))
    ensures Lower(CapitalizeToken(w)) == Lower(w)
  {
  }

  /** The name read back as tokens: as many as the input has, each equal to its input token up to letter case. */
  lemma ProperNameTokens(name: string)
    ensures |Split(CapitalizeProperName(name))| == |Split(name)|
    ensures forall i :: 0 <= i < |Split(name)| ==>
      Lower(Split(CapitalizeProperName(name))[i]) == Lower(Split(name)[i])
  {
    var words := Split(Lower(name));
    SplitLower(name);
    SplitJoinSpace(CapitalizeAll(words));
    forall i | 0 <= i < |Split(name)| ensures Lower(words[i]) == Lower(Split(name)[i]) {
      LowerIdempotent(Split(name)[i]);
    }
  }

  /**
   * A token that is a particle in any letter case comes out entirely
   * lower-case; any other token comes out with its first character
   * upper-cased and the rest lower-cased.
   */
  lemma ProperNameCasing(name: string, i: nat)
    requires i < |Split(name)|
    ensures var w := Split(name)[i];
      && i < |Split(CapitalizeProperName(name))|
      && var r := Split(CapitalizeProperName(name))[i];
      && (Lower(w) in StopWords ==> r == Lower(w) && IsLowerCase(r))
      && (Lower(w) !in StopWords ==> |r| == |w| && r[0] == UpperChar(w[0]) && r[1..] == Lower(w[1..]))
  {
    var w := Split(name)[i];
    var words := Split(Lower(name));
    SplitLower(name);
    SplitJoinSpace(CapitalizeAll(words));
    assert words[i] == Lower(w);
    LoweredTokenCasing(w);
  }

  /** The casing of one token of the lower-cased name, stated against the token before lower-casing. */
  lemma LoweredTokenCasing(w: string)
    requires IsWord(w)
    ensures var r := CapitalizeToken(Lower(w));
      && (Lower(w) in StopWords ==> r == Lower(w) && IsLowerCase(r))
      && (Lower(w) !in StopWords ==> |r| == |w| && r[0] == UpperChar(w[0]) && r[1..] == Lower(w[1..]))
  {
    LowerIdempotent(w);
    if Lower(w) !in StopWords {
      CapitalizeLowered(w);
    }
  }

  lemma CapitalizeLowered(w: string)
    requires w != []
    ensures Capitalize(Lower(w)) == [UpperChar(w[0])] + Lower(w[1..])
  {
    var l := Lower(w);
    assert l[0] == LowerChar(w[0]);
    CaseRoundTrip(w[0]);
    assert l[1..] == Lower(w[1..]);
    LowerIdempotent(w[1..]);
  }

  /** The `.strip()` the account form applies after the casing changes nothing. */
  lemma ProperNameIsStripped(name: string)
    ensures Strip(CapitalizeProperName(name)) == CapitalizeProperName(name)
  {
  }

  /** The casing ignores how the input was cased. */
  lemma ProperNameIgnoresCase(name: string)
    ensures CapitalizeProperName(Lower(name)) == CapitalizeProperName(name)
  {
    LowerIdempotent(name);
  }

  /** Casing an already cased name changes nothing. */
  lemma ProperNameIdempotent(name: string)
    ensures CapitalizeProperName(CapitalizeProperName(name)) == CapitalizeProperName(name)
  {
    var r := CapitalizeProperName(name);
    var words := Split(Lower(name));
    var caps := CapitalizeAll(words);
    SplitJoinSpace(caps);
    SplitLower(r);
    SplitLower(name);
    forall i | 0 <= i < |words| ensures Split(Lower(r))[i] == words[i] {
      LowerIdempotent(Split(name)[i]);
    }
    assert Split(Lower(r)) == words;
  }

  /** Example: "MARIA DA SILVA" becomes "Maria da Silva". */
  lemma ProperNameExample()
    ensures CapitalizeProperName("MARIA DA SILVA") == "Maria da Silva"
  {
    ExampleSplit();
    ExampleCapitalize();
    ExampleJoin();
  }

  lemma ExampleJoin()
    ensures JoinSpace(["Maria", "da", "Silva"]) == "Maria da Silva"
  {
  }

  lemma ExampleSplit()
    ensures Split(Lower("MARIA DA SILVA")) == ["maria", "da", "silva"]
  {
    assert Lower("MARIA DA SILVA") == "maria da silva";
    assert JoinSpace(["maria", "da", "silva"]) == "maria da silva";
    SplitJoinSpace(["maria", "da", "silva"]);
  }

  lemma ExampleCapitalize()
    ensures CapitalizeAll(["maria", "da", "silva"]) == ["Maria", "da", "Silva"]
  {
    ExampleMaria();
    ExampleSilva();
    ExampleDa();
  }

  lemma ExampleMaria()
    ensures CapitalizeToken("maria") == "Maria"
  {
    assert Lower("maria") == "maria";
    assert Capitalize("maria") == "Maria";
  }

  lemma ExampleSilva()
    ensures CapitalizeToken("silva") == "Silva"
  {
    assert Lower("silva") == "silva";
    assert Capitalize("silva") == "Silva";
  }

  lemma ExampleDa()
    ensures CapitalizeToken("da") == "da"
  {
    assert Lower("da") == "da";
  }
}

=== FILE: text.dfy ===
/**
 * The pieces of Python's `str` that proper-name casing is built from:
 * character classes and case mappings (`isspace`, `lower`, `capitalize`),
 * whitespace splitting (`split()` with no separator), joining with a single
 * space (`' '.join`) and trimming (`strip()`).
 *
 * Characters are Unicode code points. Lower-casing and the whitespace class
 * agree with Python's on the Latin-1 range U+0000..U+00FF, which holds the
 * ASCII letters and the accented letters of Portuguese names. Upper-casing
 * agrees with Python's title-casing of a first letter on that range except
 * for 'ß', 'ÿ' and 'µ', which the model leaves unchanged.
 */
module Text {

  /** `str.isspace` on Latin-1: tab, line feed, vertical tab, form feed, carriage return, the four information separators, space, NEL and no-break space. */
  predicate IsSpace(c: char) {
    var k := c as int;
    k == 0x20 || 0x09 <= k <= 0x0D || 0x1C <= k <= 0x1F || k == 0x85 || k == 0xA0
  }

  /** Upper-case letters that `lower` maps one code point up by 0x20: A..Z and À..Þ without ×. */
  predicate IsUpperLetter(c: char) {
    'A' <= c <= 'Z' || (0xC0 <= c as int <= 0xDE && c as int != 0xD7)
  }

  /** Lower-case letters that `upper` maps one code point down by 0x20: a..z and à..þ without ÷. */
  predicate IsLowerLetter(c: char) {
    'a' <= c <= 'z' || (0xE0 <= c as int <= 0xFE && c as int != 0xF7)
  }

  function LowerChar(c: char): (r: char)
    ensures !IsUpperLetter(r)
    ensures IsSpace(r) == IsSpace(c)
    ensures IsUpperLetter(c) ==> IsLowerLetter(r)
    ensures !IsUpperLetter(c) ==> r == c
  {
    if IsUpperLetter(c) then (c as int + 0x20) as char else c
  }

  function UpperChar(c: char): (r: char)
    ensures !IsLowerLetter(r)
    ensures IsSpace(r) == IsSpace(c)
    ensures IsLowerLetter(c) ==> IsUpperLetter(r) && LowerChar(r) == c
    ensures !IsLowerLetter(c) ==> r == c
  {
    if IsLowerLetter(c) then (c as int - 0x20) as char else c
  }

  /** `str.lower`. */
  function Lower(s: string): (r: string)
    ensures |r| == |s|
    ensures forall i :: 0 <= i < |r| ==> !IsUpperLetter(r[i])
    ensures forall i :: 0 <= i < |r| ==> IsSpace(r[i]) == IsSpace(s[i])
  {
    seq(|s|, i requires 0 <= i < |s| => LowerChar(s[i]))
  }

  /** No character of `s` is an upper-case letter. */
  predicate IsLowerCase(s: string) {
    forall i :: 0 <= i < |s| ==> !IsUpperLetter(s[i])
  }

  /** `str.capitalize`: the first character upper-cased, every other one lower-cased. */
  function Capitalize(w: string): (r: string)
    ensures |r| == |w|
    ensures r != [] ==> r[0] == UpperChar(w[0]) && !IsLowerLetter(r[0]) && IsLowerCase(r[1..])
    ensures Lower(r) == Lower(w)
  {
    if w == [] then []
    else
      CapitalizedLowersBack(w);
      [UpperChar(w[0])] + Lower(w[1..])
  }

  /** Lower-casing a capitalised word gives the word lower-cased. */
  lemma CapitalizedLowersBack(w: string)
    requires w != []
    ensures Lower([UpperChar(w[0])] + Lower(w[1..])) == Lower(w)
  {
    LowerCons(UpperChar(w[0]), Lower(w[1..]));
    LowerCons(w[0], w[1..]);
    assert w == [w[0]] + w[1..];
    CaseRoundTrip(w[0]);
    LowerIdempotent(w[1..]);
  }

  lemma LowerCons(c: char, t: string)
    ensures Lower([c] + t) == [LowerChar(c)] + Lower(t)
  {
  }

  predicate AllSpace(s: string) {
    forall i :: 0 <= i < |s| ==> IsSpace(s[i])
  }

  /** A token of `split()`: non-empty and free of whitespace. */
  predicate IsWord(w: string) {
    |w| > 0 && forall i :: 0 <= i < |w| ==> !IsSpace(w[i])
  }

  predicate AllWords(ws: seq<string>) {
    forall i :: 0 <= i < |ws| ==> IsWord(ws[i])
  }

  /** The index of the first whitespace character of `s`, or `|s|` when there is none. */
  function TokenEnd(s: string): (k: nat)
    ensures k <= |s|
    ensures forall i :: 0 <= i < k ==> !IsSpace(s[i])
    ensures k < |s| ==> IsSpace(s[k])
  {
    if s == [] || IsSpace(s[0]) then 0 else 1 + TokenEnd(s[1..])
  }

  /**
   * `str.split()` with no separator: the maximal runs of non-whitespace
   * characters, in order; leading, trailing and repeated whitespace gives no
   * empty tokens.
   */
  function Split(s: string): (ws: seq<string>)
    ensures AllWords(ws)
    ensures ws == [] <==> AllSpace(s)
    decreases |s|
  {
    if s == [] then []
    else if IsSpace(s[0]) then
      assert AllSpace(s) <==> AllSpace(s[1..]) by {
        assert forall i :: 0 < i < |s| ==> s[i] == s[1..][i - 1];
      }
      Split(s[1..])
    else
      var k := TokenEnd(s);
      [s[..k]] + Split(s[k..])
  }

  /** `' '.join(ws)`. */
  function JoinSpace(ws: seq<string>): (r: string)
    ensures |r| == |Concat(ws)| + (if ws == [] then 0 else |ws| - 1)
  {
    if |ws| == 0 then []
    else if |ws| == 1 then ws[0]
    else ws[0] + " " + JoinSpace(ws[1..])
  }

  /** `str.strip()` with no argument, as its left and right halves. */
  function StripLeft(s: string): (r: string)
    ensures |r| <= |s| && r == s[|s| - |r|..]
    ensures AllSpace(s[..|s| - |r|])
    ensures r == [] || !IsSpace(r[0])
  {
    if s != [] && IsSpace(s[0]) then
      var r := StripLeft(s[1..]);
      assert s[..|s| - |r|] == [s[0]] + s[1..][..|s| - 1 - |r|];
      r
    else s
  }

  function StripRight(s: string): (r: string)
    ensures |r| <= |s| && r == s[..|r|]
    ensures AllSpace(s[|r|..])
    ensures r == [] || !IsSpace(r[|r| - 1])
  {
    if s != [] && IsSpace(s[|s| - 1]) then
      var r := StripRight(s[..|s| - 1]);
      assert s[|r|..] == s[..|s| - 1][|r|..] + [s[|s| - 1]];
      r
    else s
  }

  function Strip(s: string): (r: string)
    ensures |r| <= |s|
    ensures r == [] || (!IsSpace(r[0]) && !IsSpace(r[|r| - 1]))
    ensures r == [] <==> AllSpace(s)
    ensures NonSpace(r) == NonSpace(s)
    ensures |r| <= |StripLeft(s)| && r == StripLeft(s)[..|r|] && AllSpace(StripLeft(s)[|r|..])
  {
    var left := StripLeft(s);
    StripBothEnds(s);
    StripRightCutsEnd(left);
    StripRight(left)
  }

  /** Right-trimming keeps a prefix verbatim and cuts whitespace only. */
  lemma StripRightCutsEnd(t: string)
    ensures var r := StripRight(t); r == t[..|r|] && AllSpace(t[|r|..])
  {
  }

  /** Trimming both ends removes whitespace only, and removes all of it only from whitespace-only text. */
  lemma StripBothEnds(s: string)
    ensures var r := StripRight(StripLeft(s));
      && (r == [] <==> AllSpace(s))
      && NonSpace(r) == NonSpace(s)
  {
    StripBothEndsEmpty(s);
    StripBothEndsKeeps(s);
  }

  lemma StripBothEndsEmpty(s: string)
    ensures StripRight(StripLeft(s)) == [] <==> AllSpace(s)
  {
    var left := StripLeft(s);
    if left == [] {
      assert s == s[..|s| - |left|];
    }
  }

  lemma StripBothEndsKeeps(s: string)
    ensures NonSpace(StripRight(StripLeft(s))) == NonSpace(s)
  {
    StripLeftKeeps(s);
    StripRightKeeps(StripLeft(s));
  }

  lemma StripLeftKeeps(s: string)
    ensures NonSpace(StripLeft(s)) == NonSpace(s)
  {
    var left := StripLeft(s);
    var cut := s[..|s| - |left|];
    assert s == cut + left;
    DropSpacesLeft(cut, left);
  }

  lemma StripRightKeeps(s: string)
    ensures NonSpace(StripRight(s)) == NonSpace(s)
  {
    var right := StripRight(s);
    var cut := s[|right|..];
    assert s == right + cut;
    DropSpacesRight(right, cut);
  }

  /** Whitespace in front of a text adds no non-whitespace characters. */
  lemma DropSpacesLeft(a: string, b: string)
    requires AllSpace(a)
    ensures NonSpace(a + b) == NonSpace(b)
  {
    NonSpaceAppend(a, b);
    NonSpaceOfSpaces(a);
  }

  /** Whitespace after a text adds no non-whitespace characters. */
  lemma DropSpacesRight(a: string, b: string)
    requires AllSpace(b)
    ensures NonSpace(a + b) == NonSpace(a)
  {
    NonSpaceAppend(a, b);
    NonSpaceOfSpaces(b);
  }

  /**
   * The text has no leading or trailing whitespace, and every whitespace
   * character in it is a single ' ' between two non-whitespace characters.
   */
  predicate SingleSpaced(r: string) {
    forall i :: 0 <= i < |r| && IsSpace(r[i]) ==>
      r[i] == ' ' && 0 < i < |r| - 1 && !IsSpace(r[i - 1]) && !IsSpace(r[i + 1])
  }

  /** Lower-casing twice is lower-casing once, and its result has no upper-case letter. */
  lemma LowerIdempotent(s: string)
    ensures IsLowerCase(Lower(s))
    ensures Lower(Lower(s)) == Lower(s)
  {
  }

  /** Lower-casing copies text that has no upper-case letter unchanged. */
  lemma LowerOfLowerCase(s: string)
    requires IsLowerCase(s)
    ensures Lower(s) == s
  {
  }

  /** Whitespace characters have no case: both case mappings leave them alone. */
  lemma SpaceIsCaseless(c: char)
    requires IsSpace(c)
    ensures !IsUpperLetter(c) && !IsLowerLetter(c)
    ensures LowerChar(c) == c && UpperChar(c) == c
  {
  }

  /** Upper-casing the first letter does not change what it lower-cases to. */
  lemma CaseRoundTrip(c: char)
    ensures LowerChar(UpperChar(c)) == LowerChar(c)
    ensures UpperChar(LowerChar(c)) == UpperChar(c)
  {
  }

  lemma LowerSlices(s: string, k: nat)
    requires k <= |s|
    ensures Lower(s)[..k] == Lower(s[..k]) && Lower(s)[k..] == Lower(s[k..])
  {
  }

  /** `TokenEnd` is pinned down by its contract: the first whitespace position, or the end. */
  lemma TokenEndAt(s: string, j: nat)
    requires j <= |s|
    requires forall i :: 0 <= i < j ==> !IsSpace(s[i])
    requires j == |s| || IsSpace(s[j])
    ensures TokenEnd(s) == j
  {
  }

  /** A word followed by whitespace or nothing splits into that word and the split of the rest. */
  lemma {:induction false} SplitWordThen(w: string, t: string)
    requires IsWord(w)
    requires t == [] || IsSpace(t[0])
    ensures Split(w + t) == [w] + Split(t)
  {
    var s := w + t;
    forall i | 0 <= i < |w| ensures !IsSpace(s[i]) { assert s[i] == w[i]; }
    TokenEndAt(s, |w|);
    assert s[..|w|] == w && s[|w|..] == t;
  }

  /** `split()` undoes `' '.join` on a list of whitespace-free, non-empty words. */
  lemma {:induction false} SplitJoinSpace(ws: seq<string>)
    requires AllWords(ws)
    ensures Split(JoinSpace(ws)) == ws
  {
    if |ws| == 1 {
      SplitWordThen(ws[0], []);
      assert ws[0] + [] == ws[0];
    } else if |ws| > 1 {
      var rest := JoinSpace(ws[1..]);
      SplitJoinSpace(ws[1..]);
      assert ws[0] + " " + rest == ws[0] + (" " + rest);
      SplitWordThen(ws[0], " " + rest);
      assert (" " + rest)[1..] == rest;
      assert ws == [ws[0]] + ws[1..];
    }
  }

  /** Splitting commutes with lower-casing: the tokens of `lower(s)` are the lower-cased tokens of `s`. */
  lemma {:induction false} SplitLower(s: string)
    ensures |Split(Lower(s))| == |Split(s)|
    ensures forall i :: 0 <= i < |Split(s)| ==> Split(Lower(s))[i] == Lower(Split(s)[i])
    decreases |s|
  {
    var l := Lower(s);
    if s != [] {
      assert l[0] == LowerChar(s[0]);
      if IsSpace(s[0]) {
        SplitLower(s[1..]);
        assert l[1..] == Lower(s[1..]);
        assert Split(l) == Split(l[1..]);
      } else {
        var k := TokenEnd(s);
        TokenEndAt(l, k);
        LowerSlices(s, k);
        SplitLower(s[k..]);
        var ts, tl := Split(s[k..]), Split(l[k..]);
        assert Split(s) == [s[..k]] + ts;
        assert Split(l) == [Lower(s[..k])] + tl;
        forall i | 0 <= i < |Split(s)|
          ensures Split(l)[i] == Lower(Split(s)[i])
        {
          if i > 0 {
            assert Split(l)[i] == tl[i - 1] && Split(s)[i] == ts[i - 1];
          }
        }
      }
    }
  }

  /** `' '.join` of words is single-spaced, and empty exactly when there are no words. */
  lemma {:induction false} JoinSpaceSingleSpaced(ws: seq<string>)
    requires AllWords(ws)
    ensures SingleSpaced(JoinSpace(ws))
    ensures JoinSpace(ws) == [] <==> ws == []
    ensures ws != [] ==> !IsSpace(JoinSpace(ws)[0]) && !IsSpace(JoinSpace(ws)[|JoinSpace(ws)| - 1])
  {
    if |ws| > 1 {
      JoinSpaceSingleSpaced(ws[1..]);
      var w, rest := ws[0], JoinSpace(ws[1..]);
      var r := JoinSpace(ws);
      assert r == w + " " + rest;
      forall i | 0 <= i < |r| && IsSpace(r[i])
        ensures r[i] == ' ' && 0 < i < |r| - 1 && !IsSpace(r[i - 1]) && !IsSpace(r[i + 1])
      {
        if i > |w| {
          assert r[i] == rest[i - |w| - 1];
          if i - |w| - 1 > 0 { assert r[i - 1] == rest[i - |w| - 2]; }
          assert r[i + 1] == rest[i - |w|];
        }
      }
    }
  }

  /** Trimming single-spaced text changes nothing. */
  lemma StripSingleSpaced(r: string)
    requires SingleSpaced(r)
    ensures Strip(r) == r
  {
  }

  /** All the non-whitespace characters of `s`, in order. */
  function NonSpace(s: string): (r: string)
    ensures |r| <= |s|
  {
    if s == [] then [] else (if IsSpace(s[0]) then [] else [s[0]]) + NonSpace(s[1..])
  }

  function Concat(ws: seq<string>): string {
    if ws == [] then [] else ws[0] + Concat(ws[1..])
  }

  lemma {:induction false} NonSpaceAppend(a: string, b: string)
    ensures NonSpace(a + b) == NonSpace(a) + NonSpace(b)
    decreases |a|
  {
    if a != [] {
      NonSpaceAppend(a[1..], b);
      var head := if IsSpace(a[0]) then [] else [a[0]];
      assert (a + b)[0] == a[0] && (a + b)[1..] == a[1..] + b;
      assert NonSpace(a + b) == head + NonSpace(a[1..] + b);
      assert NonSpace(a) == head + NonSpace(a[1..]);
      assert head + (NonSpace(a[1..]) + NonSpace(b)) == (head + NonSpace(a[1..])) + NonSpace(b);
    } else {
      assert a + b == b;
    }
  }

  lemma {:induction false} NonSpaceOfSpaces(s: string)
    requires AllSpace(s)
    ensures NonSpace(s) == []
  {
    if s != [] { NonSpaceOfSpaces(s[1..]); }
  }

  lemma {:induction false} NonSpaceOfWord(w: string)
    requires forall i :: 0 <= i < |w| ==> !IsSpace(w[i])
    ensures NonSpace(w) == w
  {
    if w != [] { NonSpaceOfWord(w[1..]); }
  }

  /** No character other than whitespace is lost or reordered by splitting: the tokens put back together are the input without its whitespace. */
  lemma {:induction false} SplitKeepsNonSpace(s: string)
    ensures Concat(Split(s)) == NonSpace(s)
    decreases |s|
  {
    if s != [] {
      if IsSpace(s[0]) {
        SplitKeepsNonSpace(s[1..]);
      } else {
        var k := TokenEnd(s);
        SplitKeepsNonSpace(s[k..]);
        assert s == s[..k] + s[k..];
        NonSpaceAppend(s[..k], s[k..]);
        NonSpaceOfWord(s[..k]);
        assert ([s[..k]] + Split(s[k..]))[1..] == Split(s[k..]);
      }
    }
  }
}

=== FILE: wrappers.dfy ===
/** The optional-value datatype used for Python's `None` and for readers that can fail. */
module Wrappers {
  datatype Option<+T> = None | Some(value: T)
}
